=== FILE: README.md ===
# RS-100 virtual machine — Dafny model

This project models the core of RS-100, a byte-code virtual machine for a
TIS-100-style assembly dialect. It covers:

- the saturating integer `Num` (clamped to [-999, 999]) and its (high, low)
  byte serialisation;
- the closed `Opcode` and `Dest` tables with their byte decoders;
- the fetch–execute machine `RS100`, as a pure `Step` over an immutable
  `Machine` record plus a fuel-bounded `Run` standing for `execute`;
- the two pure port modules, `NoneModule` and `StackModule`, and the module
  selector `get_module`;
- the byte-code `Emitter`.

Files and modules follow the Rust sources:

| file | module | source |
|---|---|---|
| `common.dfy` | `Common` | `src/common.rs` |
| `modules.dfy` | `Modules` | `src/modules.rs` |
| `vm.dfy` | `Vm` | `src/vm.rs` |
| `vm_properties.dfy` | `VmProperties` | lemmas about `src/vm.rs` |
| `emitter.dfy` | `Emitter` | `src/emitter.rs` |
| `scenarios.dfy` | `Scenarios` | whole programs run on the model |

Modelling choices:

- `Byte` (`u8`) and `I16` (`i16`) are integer subset types, and `Num` is the
  integers in [-999, 999]. Bit operations are written as arithmetic. `& 0b1111`
  becomes `% 16`, the literal flag becomes `(b / 16) % 2`, and the jump
  target's `|` of disjoint shifted fields becomes `+`. `from_u8` reads
  `hi * 256 + lo` as 16-bit two's complement. `to_u8` uses floor division,
  which is what Rust's arithmetic `>> 8` on a negative `i16` does.
- A port module is a value: `NonePort` or `StackPort(stack)`, where the top of
  the stack is the last element. `Read` and `Write` return the module's new
  state alongside the result.
- The Rust program can end a run in three ways. `Ok(())` is `Halted`. The
  `Err` of an invalid opcode is `Failed`, which carries the state it was met
  in. A panic is `Aborted`. With the none and stack modules there are two
  panics: an index past the end of the program, and the `expect` on a failed
  operand read inside `get_operands`. The console modules can panic too; see
  "## Left out". `OutOfFuel` exists only in the model.
- `Run` is `Loop` applied to `Step`. `Loop` is the `while` loop of `execute`
  around any step function, so facts about the loop itself (fuel, composing
  runs) are proved once, apart from what each instruction does.
- Quirks of the code are kept as written:
  - A failed port read inside `get_operands` is an `expect` panic, modelled
    as `Aborted`, not an `Err` returned from the run.
  - `set` drops the module's write error, so `Set` returns the machine directly.
  - `get(Down)` reads the up module.
  - Jump opcodes fetch operands too, so a non-literal jump reads a port first.
  - The jump target is `b1 << 24 | b2 << 8 | b3`. Byte 1 is shifted by 24, so
    bits 16–23 of the target are always zero.
  - A record cut short at the end of the program is a panic, and only for the
    opcodes that fetch operands. It is an index panic, unless a non-literal
    read through byte 2 fails first, which is the `expect` panic. `Nop`,
    `Swp`, `Sav`, `Neg` and `Jro` never look past byte 0.
  - `Jro` casts the accumulator to a 64-bit `usize`, so a negative value `v`
    becomes `2^64 + v` and the loop ends.

## Model

| member | source | states |
|---|---|---|
| `Common.NumFrom` | src/common.rs:85-95 | The result is the argument when it lies in [-999, 999], 999 above that range, and -999 below it. |
| `Common.NumFromIsNearest` | src/common.rs:85-95 | Clamping picks the value in [-999, 999] nearest to its argument, and clamping twice is the same as clamping once. |
| `Common.NumAdd` | src/common.rs:51-57 | The sum is exact inside [-999, 999], and 999 or -999 when the exact sum lies above or below that range. |
| `Common.NumSub` | src/common.rs:59-65 | The difference is exact inside [-999, 999], and 999 or -999 when the exact difference lies above or below that range. |
| `Common.NumNeg` | src/common.rs:42-44 | Negation gives exactly `-value`; the symmetric range means it never saturates. |
| `Common.NumAddSubSaturate` | src/common.rs:51-65 | `a + b` and `a - b` are exact inside the range and stick to 999 or -999 outside it. Addition commutes, and `a - b` equals `a + neg(b)`. |
| `Common.NumNegExact` | src/common.rs:42-44 | `neg` never saturates: it gives exactly `-value`, it is an involution, and it maps 0 to 0. |
| `Common.AsI16` | src/common.rs:38-40 | The value read from a 16-bit pattern is the unique `i16` congruent to that pattern modulo 2^16 (two's complement). |
| `Common.NumFromBytes` | src/common.rs:38-40 | A high byte below 0x80 gives the clamped value `hi * 256 + lo`. A high byte of 0x80 or more gives the clamped negative value `hi * 256 + lo - 2^16`. |
| `Common.NumToBytes` | src/common.rs:46-48 | `hi * 256 + lo` is the value modulo 2^16, and the high byte has its top bit set exactly when the value is negative. |
| `Common.NumToBytesIsTwosComplement` | src/common.rs:46-48 | `hi * 256 + lo` is the 16-bit two's-complement pattern of the value. |
| `Common.NumBytesRoundTrip` | src/common.rs:38-48 | `from_u8(to_u8(n)) == n` for every `Num`. |
| `Common.NumFromBytesExamples` | src/common.rs:38-40 | (0xFF, 0xFF) reads as -1, (0x7F, 0xFF) clamps to 999, (0x80, 0x00) clamps to -999, and (0x03, 0xE7) is 999. |
| `Common.NumCompare` | src/common.rs:67-83 | The comparison is the integer order on the value: `Less`, `Equal` and `Greater` each hold exactly when `<`, `==` and `>` do. |
| `Common.NumToUsize` | src/common.rs:103-107 | The `usize` is below 2^64 and congruent to the value modulo 2^64 (sign extension). |
| `Common.OpcodeFromByte` | src/common.rs:132-152 | Decoding succeeds exactly for 0..=12, always to the opcode whose discriminant is that byte. Any other byte gives `Err("invalid opcode v")`. |
| `Common.OpcodeRoundTrip` | src/common.rs:115-152 | Every opcode decodes from its own discriminant, in declaration order Nop…Jro. |
| `Common.DestFromByte` | src/common.rs:168-179 | Decoding succeeds exactly for 0..=3, giving the selector whose `u8` is that byte. Any other byte gives `Err("v is not a valid Dest value")`. |
| `Common.DestToByte` | src/common.rs:181-190 | Every selector encodes to a byte in 0..=3 (and `DestRoundTrip` shows `try_from` inverts it). |
| `Common.DestRoundTrip` | src/common.rs:168-190 | `Dest::try_from(u8::from(d)) == Ok(d)` for every selector. |
| `Modules.Read` | src/modules.rs:104-111 | A read keeps the kind of module, and a failed read leaves the module's state unchanged. |
| `Modules.Write` | src/modules.rs:113-116 | A write never returns an error and keeps the kind of module. |
| `Modules.NoneModuleIsInert` | src/modules.rs:29-38 | `NoneModule` reads `Ok(0)`, and a write returns `None` and leaves it unchanged. |
| `Modules.StackUnderflow` | src/modules.rs:106-108 | Reading an empty stack returns `Err("stack underflow")` and leaves it empty. |
| `Modules.StackWriteThenRead` | src/modules.rs:106-116 | `write(n)` then `read()` returns `Ok(n)` and restores the previous stack. |
| `Modules.StackIsLifo` | src/modules.rs:104-117 | After writing any sequence, reading as many values returns them in reverse order and restores the original stack. |
| `Modules.GetModule` | src/modules.rs:6-15 | The selector succeeds exactly when the lower-cased name is "none", "stdin", "stdout" or "stack-". It picks the none module, the console input module, the console output module carrying `num`, and the stack module by exactly those four names, and otherwise errs quoting the lower-cased name. |
| `Modules.ToLower` | src/modules.rs:7 | Lower-casing keeps the length and leaves no upper-case ASCII letter. Each upper-case letter becomes the letter 32 code points above it, and every other character is kept. |
| `Modules.GetModuleIgnoresCase` | src/modules.rs:6-15 | Selection gives the same result for a name and its lower-cased form. |
| `Modules.GetModuleUpperCaseStack` | src/modules.rs:12 | "STACK-" selects the stack module. |
| `Modules.GetModuleStackNeedsHyphen` | src/modules.rs:12 | "stack" without the hyphen is rejected as `'stack' is not a valid module`. |
| `Vm.New` | src/vm.rs:15-24 | The machine starts with `pc = 0`, `acc = 0`, `bak = 0` and `last_dst = Down`, so the `last_dst` invariant holds from the start. |
| `Vm.OpcodeNibble` | src/vm.rs:108-110 | The opcode nibble is below 16 and differs from byte 0 by a multiple of 16, i.e. it is bits 0–3. |
| `Vm.Flags` | src/vm.rs:127-129 | The flags are below 16 and are byte 0 divided by 16, rounded down: bits 4–7. |
| `Vm.IsLiteral` | src/vm.rs:127-133 | A record is literal exactly when bit 4 of byte 0 is set. |
| `Vm.GetOpcode` | src/vm.rs:108-110 | Decoding succeeds exactly when the low nibble of byte 0 is at most 12, and then gives the opcode whose discriminant is that nibble. |
| `Vm.DestOrDefault` | src/vm.rs:117 | A byte 0–3 gives the selector with that code, and any other byte falls back to `Last`. |
| `Vm.Get` | src/vm.rs:135-152 | A successful read keeps `last_dst` a port and never changes the program, `pc`, `acc`, `bak` or the down module. |
| `Vm.Set` | src/vm.rs:154-176 | A write always succeeds, keeps `last_dst` a port, and never changes the program, `pc` or `bak`. |
| `Vm.GetOperands` | src/vm.rs:112-125 | The destination comes from byte 3 and the jump target from bytes 1–3. Operand A is the literal in bytes 1–2 (no port touched), or a read through byte 2. A failed read is the `expect` panic, carrying the read's error, and comes before any check on byte 3. A record that ends before byte 3 is an index panic, and any record with fewer than four bytes panics. |
| `Vm.ExecuteWithOperands` | src/vm.rs:31-98 | Mov, Add and Sub continue at `pc + 4`. Every jump goes either to the packed target or to `pc + 4` and leaves `acc` alone. No arm changes the program or `bak`, and `last_dst` stays a port. |
| `Vm.Step` | src/vm.rs:28-103 | One instruction keeps the `last_dst` invariant and the program. It returns `Err` exactly when the opcode nibble is 13–15, with the message `invalid opcode v`. |
| `Vm.Loop` | src/vm.rs:27-106 | For any step function that keeps the invariant and the program, the loop ends with `Ok` only once `pc >= data.len()`, and with `Err` only where that step fails, in the state where it failed. |
| `Vm.Run` | src/vm.rs:27-106 | `execute` returns `Ok` only with `pc >= data.len()`. It returns `Err` only at an invalid opcode nibble, in the state where it was met. Every end state keeps the invariant and the program. |
| `VmProperties.FirstByteFields` | src/vm.rs:108-133 | Bits 0–4 of byte 0 are exactly the opcode nibble plus the literal flag at bit 4, and bits 5–7 affect neither. |
| `Vm.JumpTarget` | src/vm.rs:121-123 | The target fits in a `u32` and bits 16–23 are always zero. Bytes 1, 2 and 3 can be read back from bits 24–31, 8–15 and 0–7. |
| `VmProperties.LastResolvesToLastDst` | src/vm.rs:135-176 | Reading or writing `Last` is exactly reading or writing `last_dst`. |
| `VmProperties.AccessingAccKeepsLastDst` | src/vm.rs:138-165 | Reading `Acc` changes nothing. Writing it changes only `acc`. |
| `VmProperties.LastFollowsPortAccess` | src/vm.rs:139-174 | After a port is read or written, `Last` reads and writes behave as if they named that port. |
| `VmProperties.DownReadsUpModule` | src/vm.rs:139-146 | A read of `Up` or `Down` succeeds exactly when the up module's read does. A read of `Up` returns the up module's value, leaves the up module as that read left it, and records `Up`. A read of `Down` does the same from the up module and records `Down`. |
| `VmProperties.SetPortWrites` | src/vm.rs:161-170 | Writing `Up` or `Down` records that port and writes to that port's module. A stack module gets the value pushed. |
| `VmProperties.StepWithoutOperands` | src/vm.rs:30-101 | Nop, Swp, Sav, Neg and Jro never panic. Swp exchanges `acc` and `bak`, Sav copies `acc` to `bak`, and Neg sets `acc` to exactly `-acc` leaving `bak` and `last_dst` alone. Jro sets `pc` to `acc`, or to `2^64 + acc` when `acc` is negative. |
| `VmProperties.TruncatedRecordPanics` | src/vm.rs:112-125 | Every opcode that fetches operands panics when `pc + 3` is past the end of the program. |
| `VmProperties.StepAdvancesByFour` | src/vm.rs:30-62 | Nop, Mov, Swp, Sav, Add, Sub and Neg always continue at `pc + 4`. |
| `VmProperties.StepJumps` | src/vm.rs:63-98 | Jmp always goes to the packed target. Jez, Jnz, Jgz and Jlz go there exactly when `acc` is == 0, != 0, > 0 or < 0, and otherwise to `pc + 4`. No jump changes `acc` or `bak`. A jump completes exactly when its operands are fetched, and the state after it is the state after the operand read with only `pc` changed. |
| `VmProperties.StepArithmetic` | src/vm.rs:47-58 | Add and Sub set `acc` to the saturated sum or difference with operand A, and continue at `pc + 4`. For a literal the operand is the clamped value of bytes 1–2. |
| `VmProperties.StepMov` | src/vm.rs:31-36 | Mov writes operand A through byte 3. A byte above 3 writes to `Last`, resolved after the operand read. A literal Mov to `Acc` just loads the literal. |
| `VmProperties.NonLiteralJumpReadsPort` | src/vm.rs:63-66 | A non-literal Jmp whose byte 2 is `Up` reads the up module before it jumps. From an empty stack it panics. Otherwise it pops the stack, records `Up` and jumps. |
| `VmProperties.RunAtEndHalts` | src/vm.rs:28-105 | With `pc >= data.len()` the loop returns `Ok` at once. |
| `VmProperties.RunStopsOnInvalidOpcode` | src/vm.rs:108-110 | An opcode nibble of 13–15 ends the run with `Err("invalid opcode v")` in the unchanged state. |
| `VmProperties.NegativeJroHalts` | src/vm.rs:99-101 | Jro with a negative `acc` ends the run with `Ok`, and `pc` is left at `2^64 + acc`. |
| `VmProperties.RunTakesStep` | src/vm.rs:28-103 | One loop iteration is one `Step`. |
| `VmProperties.RunFuelMonotone` | src/vm.rs:27-106 | A run that ends within some fuel gives the same outcome with any more fuel, so the bound only cuts off runs that do not end. |
| `VmProperties.RunComposes` | src/vm.rs:27-106 | Running `a` instructions and then `b` more is the same as running `a + b`. |
| `Emitter.Emit` | src/emitter.rs:15-17 | `emit` appends exactly the given bytes and keeps the earlier ones. |
| `Emitter.EmitInstruction` | src/emitter.rs:19-21 | As written: appends four bytes and keeps the earlier ones. Bytes 0 and 1 are 0, and bytes 2 and 3 decode back to the selectors given. |
| `Emitter.EmitLiteralInstruction` | src/emitter.rs:23-26 | As written: appends four bytes and keeps the earlier ones. Byte 0 is 0, bytes 1–2 are exactly `to_u8(Num::from(lit))` (the 16-bit two's-complement pattern of the clamped literal, so they read back as `Num::from(lit)`), and byte 3 decodes to the destination. |
| `Emitter.EmittedRecords` | src/emitter.rs:19-26 | Each instruction method appends exactly four bytes, so a length that is a multiple of 4 stays one. Bytes 2–3, or 3, decode back to the selectors given. Bytes 1–2 of a literal record read back as `Num::from(lit)`. |
| `Emitter.EmittedRecordsAreNop` | src/emitter.rs:19-26 | As written, every emitted record decodes as opcode Nop with the literal flag clear, whatever opcode was asked for. |
| `Emitter.EmittedAddDoesNothing` | src/emitter.rs:23-26 | A literal Add emitted as written executes as a Nop, for every literal and every destination. |
| `Emitter.IntendedRecordDecodes` | src/emitter.rs:19-21 | With the opcode written into byte 0, a plain record decodes to that opcode with the literal flag clear, and to the selectors it was built from. |
| `Emitter.IntendedLiteralRecordDecodes` | src/emitter.rs:23-26 | With the opcode and bit 4 written into byte 0, a literal record decodes to that opcode with the literal flag set, to `Num::from(lit)` and to the destination it was built from. |
| `Emitter.IntendedAddRuns` | src/emitter.rs:23-26 | A literal Add emitted with the corrected encoding adds `Num::from(lit)` to `acc`. |
| `Scenarios.NopProgramHalts` | src/vm.rs:27-106 | A single Nop record halts after one step with both ports untouched. |
| `Scenarios.MovSavSwp` | src/vm.rs:31-46 | A literal Mov of 42 to Acc, then Sav, then Swp leaves `acc` and `bak` both 42. |
| `Scenarios.AddSaturatesLiteral` | src/vm.rs:47-52 | Add with the literal 1500 saturates the operand to 999. |
| `Scenarios.JezTakenOrNot` | src/vm.rs:67-74 | A literal Jez goes to the packed target when `acc` is 0, and to `pc + 4` otherwise. |
| `Scenarios.InvalidOpcodeStops` | src/vm.rs:29 | Byte 0x0D stops the run with `Err("invalid opcode 13")` in the initial state. |
| `Scenarios.MovUpToDown` | src/vm.rs:31-36 | A Mov from `Up` to `Down` moves the top of the up stack onto the down stack and records `Down`. |

## Left out

- `ConsoleInputModule` and `ConsoleOutputModule` (src/modules.rs:40-93) are stdin/stdout I/O. `get_module` is modelled as choosing a `ModuleKind`, and only the none and stack modules have a state that `Run` can use.
- src/main.rs (argument parsing, reading the program file, exit codes) is I/O plumbing and is not part of this model.
- The lexer and tokens (src/compiler) are a stub with no behaviour and are not part of this model.
- The `Display` implementations only format text.
- The `Dest::Left` and `Dest::Right` arms of `get` and `set` name variants that `Dest` does not have; only the four real variants are modelled.
- The console input module's read takes the first byte of the line it reads. At end of input `read_line` returns an empty line, and indexing it panics inside `get` (src/modules.rs:51-52). This panic is not modelled, because the console modules are not.
- `Modules.ToLower`: only ASCII letters are lower-cased. `to_lowercase` also maps non-ASCII capitals, such as `Ä` to `ä`, and some of them to more than one character (`İ` to `i` plus a combining dot). The model keeps those characters and the length where the source would change them.
- `Modules.GetModule`: `to_lowercase` is modelled for ASCII letters only. Unicode case mappings that land on ASCII, such as U+212A KELVIN SIGN to `k`, are not modelled.
- `Vm.Run`: the fuel bound stands in for the unbounded `while` loop. A program that never ends, such as `Jmp 0`, is seen only as `OutOfFuel`.
- `Vm.Get`: a failed read returns only the error, not the machine. Every such failure ends the run in a panic, so the state it would have left is never observed.
- Panics carry their reason, but not the machine state or any port effects made before them, since the process ends there.
- `usize` is fixed at 64 bits. `Vec<u8>` lengths are at most `isize::MAX`, and `NegativeJroHalts` assumes this bound.
- `Into<i16>` and the derived `Eq`/`Ord` of `Num` are not modelled separately. A `Num` is its value, and the derived order compares that value, just as `NumCompare` does.

## Findings

| source | as written | input that shows it | evidently intended | confidence | as-written member | corrected member |
|---|---|---|---|---|---|---|
| src/emitter.rs:19-21 | `emit_instruction` ignores its `opcode` argument, and byte 0 is always 0 | `EmitInstruction(e, Add, Up, Acc)` appends `[0, 0, 2, 1]`, which the machine decodes as Nop | byte 0 holds the opcode's discriminant | high; not executed | `Emitter.EmitInstruction` (shown by `Emitter.EmittedRecordsAreNop`) | `Emitter.EmitInstructionIntended` (proved by `Emitter.IntendedRecordDecodes`) |
| src/emitter.rs:23-26 | `emit_literal_instruction` ignores its `opcode` argument and never sets the literal flag, so byte 0 is always 0 | `EmitLiteralInstruction(NewEmitter, Add, 5, Acc)` runs as a Nop and leaves `acc` unchanged | byte 0 holds the opcode with bit 4 (the literal flag) set | high; not executed | `Emitter.EmitLiteralInstruction` (shown by `Emitter.EmittedAddDoesNothing`) | `Emitter.EmitLiteralInstructionIntended` (proved by `Emitter.IntendedAddRuns`) |

=== FILE: common.dfy ===
/** The value and encoding layer of the RS-100 machine (src/common.rs): the
    saturating integer `Num`, its two-byte serialisation, and the closed
    `Opcode` and `Dest` tables with their byte decoders. */
module Common {

  /** Errors are plain strings, as `pub type Error = String`. */
  type Error = string

  datatype Option<+T> = None | Some(value: T)

  datatype Result<+T> = Ok(value: T) | Err(error: Error)

  /** `u8`. */
  type Byte = b: int | 0 <= b < 0x100

  /** `i16`. */
  type I16 = v: int | -0x8000 <= v < 0x8000

  const MaxNum: int := 999
  const MinNum: int := -999

  /** `Num`: its private `value: i16` is clamped by every constructor, so a
      `Num` is exactly an integer in [MinNum, MaxNum]. */
  type Num = v: I16 | MinNum <= v <= MaxNum

  /** Every record of the byte code is four bytes long. */
  const InstructionSize: nat := 4

  /** `2^64`: the platform `usize` is taken to be 64 bits wide. */
  const UsizeModulus: int := 0x1_0000_0000_0000_0000

  // ---------------------------------------------------------------------
  // Num
  // ---------------------------------------------------------------------

  /** `Num::new()`. */
  const Zero: Num := 0

  /** `Num::from(i16)`: saturate into [MinNum, MaxNum]. */
  function NumFrom(v: I16): (n: Num)
    ensures MinNum <= v <= MaxNum ==> n == v
    ensures v > MaxNum ==> n == MaxNum
    ensures v < MinNum ==> n == MinNum
  {
    if v > MaxNum then MaxNum
    else if v < MinNum then MinNum
    else v
  }

  function Dist(a: int, b: int): (d: nat) {
    if a <= b then b - a else a - b
  }

  /** Saturation picks the representable value closest to its argument. */
  lemma NumFromIsNearest(v: I16)
    ensures forall k: int :: MinNum <= k <= MaxNum ==> Dist(NumFrom(v), v) <= Dist(k, v)
    ensures NumFrom(NumFrom(v)) == NumFrom(v)
  {
  }

  /** `impl Add for Num`: the `i16` sum (which cannot overflow), re-clamped. */
  function NumAdd(a: Num, b: Num): (r: Num)
    ensures MinNum <= a + b <= MaxNum ==> r == a + b
    ensures a + b > MaxNum ==> r == MaxNum
    ensures a + b < MinNum ==> r == MinNum
  {
    NumFrom(a + b)
  }

  /** `impl Sub for Num`: the `i16` difference, re-clamped. */
  function NumSub(a: Num, b: Num): (r: Num)
    ensures MinNum <= a - b <= MaxNum ==> r == a - b
    ensures a - b > MaxNum ==> r == MaxNum
    ensures a - b < MinNum ==> r == MinNum
  {
    NumFrom(a - b)
  }

  /** `Num::neg`. */
  function NumNeg(a: Num): (r: Num)
    ensures r == -a
  {
    NumFrom(-a)
  }

  /** Addition and subtraction are exact inside the range and stick to the
      nearer bound outside it. */
  lemma NumAddSubSaturate(a: Num, b: Num)
    ensures MinNum <= a + b <= MaxNum ==> NumAdd(a, b) == a + b
    ensures a + b > MaxNum ==> NumAdd(a, b) == MaxNum
    ensures a + b < MinNum ==> NumAdd(a, b) == MinNum
    ensures MinNum <= a - b <= MaxNum ==> NumSub(a, b) == a - b
    ensures a - b > MaxNum ==> NumSub(a, b) == MaxNum
    ensures a - b < MinNum ==> NumSub(a, b) == MinNum
    ensures NumAdd(a, b) == NumAdd(b, a)
    ensures NumSub(a, b) == NumAdd(a, NumNeg(b))
  {
  }

  /** The range is symmetric, so negation never saturates and is an involution. */
  lemma NumNegExact(a: Num)
    ensures NumNeg(a) == -a
    ensures NumNeg(NumNeg(a)) == a
    ensures NumNeg(Zero) == Zero
  {
  }

  /** Reads a 16-bit pattern as two's complement. */
  function AsI16(u: nat): (v: I16)
    requires u < 0x1_0000
    ensures v % 0x1_0000 == u
  {
    if u >= 0x8000 then u - 0x1_0000 else u
  }

  /** `Num::from_u8(a, b)`: `(a as i16) << 8 | b as i16` is the 16-bit pattern
      `a * 256 + b` (the low byte of the shifted value is zero, so `|` adds),
      read as `i16` and then clamped. */
  function NumFromBytes(hi: Byte, lo: Byte): (n: Num)
    ensures hi < 0x80 ==> n == NumFrom(hi * 0x100 + lo)
    ensures hi >= 0x80 ==> n == NumFrom(hi * 0x100 + lo - 0x1_0000)
    ensures hi >= 0x80 ==> n < 0
  {
    NumFrom(AsI16(hi * 0x100 + lo))
  }

  /** `Num::to_u8`: `value >> 8` is an arithmetic shift (floor division by
      256) and `as u8` keeps the low 8 bits; `value & 0xff` is the low byte of
      the two's-complement pattern. Dafny's `/` and `%` by a positive divisor
      are floor-based, so they agree with these for negative values too. */
  function NumToBytes(n: Num): (r: (Byte, Byte))
    ensures r.0 * 0x100 + r.1 == n % 0x1_0000
    ensures n < 0 <==> r.0 >= 0x80
  {
    FloorBytes(n);
    ((n / 0x100) % 0x100, n % 0x100)
  }

  /** Floor division and remainder by 256 split a value in range into the
      high and low byte of its 16-bit two's-complement pattern. */
  lemma FloorBytes(n: Num)
    ensures ((n / 0x100) % 0x100) * 0x100 + n % 0x100 == (if n < 0 then n + 0x1_0000 else n)
    ensures n < 0 <==> (n / 0x100) % 0x100 >= 0x80
  {
    var hi := (n / 0x100) % 0x100;
    var lo := n % 0x100;
    assert n == (n / 0x100) * 0x100 + lo;
    if n < 0 {
      assert -4 <= n / 0x100 < 0;
      assert hi == n / 0x100 + 0x100;
    } else {
      assert 0 <= n / 0x100 < 4;
      assert hi == n / 0x100;
    }
  }

  /** The byte pair is the 16-bit two's-complement pattern of the value. */
  lemma NumToBytesIsTwosComplement(n: Num)
    ensures NumToBytes(n).0 * 0x100 + NumToBytes(n).1 == (if n < 0 then n + 0x1_0000 else n)
  {
    FloorBytes(n);
  }

  /** Serialising a value and reading it back gives the same value. */
  lemma NumBytesRoundTrip(n: Num)
    ensures NumFromBytes(NumToBytes(n).0, NumToBytes(n).1) == n
  {
    NumToBytesIsTwosComplement(n);
  }

  /** Byte pairs that encode values outside the range are clamped on reading. */
  lemma NumFromBytesExamples()
    ensures NumFromBytes(0xFF, 0xFF) == -1
    ensures NumFromBytes(0x7F, 0xFF) == MaxNum
    ensures NumFromBytes(0x80, 0x00) == MinNum
    ensures NumFromBytes(0x03, 0xE7) == 999
  {
  }

  datatype Ordering = Less | Equal | Greater

  /** `PartialOrd::partial_cmp` (and the `PartialEq` it agrees with). */
  function NumCompare(a: Num, b: Num): (r: Ordering)
    ensures r == Less <==> a < b
    ensures r == Equal <==> a == b
    ensures r == Greater <==> a > b
  {
    if a > b then Greater
    else if a < b then Less
    else Equal
  }

  /** `Into<usize>`: `value as usize` sign-extends, so a negative value `v`
      becomes `2^64 + v`. */
  function NumToUsize(n: Num): (r: nat)
    ensures r < UsizeModulus
    ensures (r - n) % UsizeModulus == 0
  {
    if n < 0 then UsizeModulus + n else n
  }

  // ---------------------------------------------------------------------
  // Decimal rendering, used by the error messages
  // ---------------------------------------------------------------------

  function DigitChar(d: nat): (c: char)
    requires d < 10
  {
    "0123456789"[d]
  }

  /** `format!("{}", n)` for an unsigned `n`. */
  function NatToString(n: nat): (s: string)
    ensures |s| >= 1
  {
    if n < 10 then [DigitChar(n)]
    else NatToString(n / 10) + [DigitChar(n % 10)]
  }

  // ---------------------------------------------------------------------
  // Opcode
  // ---------------------------------------------------------------------

  datatype Opcode = Nop | Mov | Swp | Sav | Add | Sub | Neg | Jmp | Jez | Jnz | Jgz | Jlz | Jro

  /** The enum discriminant, in declaration order. */
  function OpcodeCode(op: Opcode): (v: Byte)
  {
    match op
    case Nop => 0
    case Mov => 1
    case Swp => 2
    case Sav => 3
    case Add => 4
    case Sub => 5
    case Neg => 6
    case Jmp => 7
    case Jez => 8
    case Jnz => 9
    case Jgz => 10
    case Jlz => 11
    case Jro => 12
  }

  /** `Opcode::try_from(u8)`. */
  function OpcodeFromByte(v: Byte): (r: Result<Opcode>)
    ensures r.Ok? <==> v <= 12
    ensures r.Ok? ==> OpcodeCode(r.value) == v
    ensures r.Err? ==> r.error == "invalid opcode " + NatToString(v)
  {
    match v
    case 0 => Ok(Nop)
    case 1 => Ok(Mov)
    case 2 => Ok(Swp)
    case 3 => Ok(Sav)
    case 4 => Ok(Add)
    case 5 => Ok(Sub)
    case 6 => Ok(Neg)
    case 7 => Ok(Jmp)
    case 8 => Ok(Jez)
    case 9 => Ok(Jnz)
    case 10 => Ok(Jgz)
    case 11 => Ok(Jlz)
    case 12 => Ok(Jro)
    case _ => Err("invalid opcode " + NatToString(v))
  }

  /** Every opcode decodes from its own discriminant. */
  lemma OpcodeRoundTrip(op: Opcode)
    ensures OpcodeFromByte(OpcodeCode(op)) == Ok(op)
  {
  }

  // ---------------------------------------------------------------------
  // Dest
  // ---------------------------------------------------------------------

  /** The operand selector. `Last` stands for the port used most recently. */
  datatype Dest = Last | Acc | Up | Down

  /** `impl Default for Dest`. */
  const DefaultDest: Dest := Last

  /** `Into<u8> for Dest`. */
  function DestToByte(d: Dest): (v: Byte)
    ensures v < 4
  {
    match d
    case Last => 0
    case Acc => 1
    case Up => 2
    case Down => 3
  }

  /** `Dest::try_from(u8)`. */
  function DestFromByte(v: Byte): (r: Result<Dest>)
    ensures r.Ok? <==> v < 4
    ensures r.Ok? ==> DestToByte(r.value) == v
    ensures r.Err? ==> r.error == NatToString(v) + " is not a valid Dest value"
  {
    match v
    case 0 => Ok(Last)
    case 1 => Ok(Acc)
    case 2 => Ok(Up)
    case 3 => Ok(Down)
    case _ => Err(NatToString(v) + " is not a valid Dest value")
  }

  /** Encoding a selector and decoding it again gives it back. */
  lemma DestRoundTrip(d: Dest)
    ensures DestFromByte(DestToByte(d)) == Ok(d)
  {
  }
}

=== FILE: emitter.dfy ===
/** The byte-code emitter (src/emitter.rs): a buffer that grows by appended
    four-byte records. As written, both instruction methods ignore their
    opcode argument; the `Intended` variants below put the opcode (and, for a
    literal, the literal flag) into byte 0 instead. */
module Emitter {
  import opened Common
  import Vm

  datatype Emitter = Emitter(instructions: seq<Byte>)

  /** `Emitter::new()`. */
  const NewEmitter: Emitter := Emitter([])

  /** `emit`: append `bytes`, leaving what is already there alone. */
  function Emit(e: Emitter, bytes: seq<Byte>): (r: Emitter)
    ensures |r.instructions| == |e.instructions| + |bytes|
    ensures r.instructions[..|e.instructions|] == e.instructions
    ensures r.instructions[|e.instructions|..] == bytes
  {
    Emitter(e.instructions + bytes)
  }

  /** `emit_instruction`, as written: `op` is unused and byte 0 is 0. */
  function EmitInstruction(e: Emitter, op: Opcode, src: Dest, dst: Dest): (r: Emitter)
    ensures |r.instructions| == |e.instructions| + 4
    ensures r.instructions[..|e.instructions|] == e.instructions
    ensures r.instructions[|e.instructions|] == 0 && r.instructions[|e.instructions| + 1] == 0
    ensures DestFromByte(r.instructions[|e.instructions| + 2]) == Ok(src)
    ensures DestFromByte(r.instructions[|e.instructions| + 3]) == Ok(dst)
  {
    DestRoundTrip(src);
    DestRoundTrip(dst);
    Emit(e, [0, 0, DestToByte(src), DestToByte(dst)])
  }

  /** `emit_literal_instruction`, as written: `op` is unused, byte 0 is 0,
      and bytes 1–2 are the serialised clamped literal. */
  function EmitLiteralInstruction(e: Emitter, op: Opcode, lit: I16, dst: Dest): (r: Emitter)
    ensures |r.instructions| == |e.instructions| + 4
    ensures r.instructions[..|e.instructions|] == e.instructions
    ensures r.instructions[|e.instructions|] == 0
    ensures r.instructions[|e.instructions| + 1] as int * 0x100 + r.instructions[|e.instructions| + 2] == NumFrom(lit) % 0x1_0000
    ensures NumFromBytes(r.instructions[|e.instructions| + 1], r.instructions[|e.instructions| + 2]) == NumFrom(lit)
    ensures DestFromByte(r.instructions[|e.instructions| + 3]) == Ok(dst)
  {
    NumBytesRoundTrip(NumFrom(lit));
    DestRoundTrip(dst);
    var (hi, lo) := NumToBytes(NumFrom(lit));
    Emit(e, [0, hi, lo, DestToByte(dst)])
  }

  /** The last record of a buffer. */
  function LastRecord(e: Emitter): (rec: seq<Byte>)
    requires |e.instructions| >= 4
    ensures |rec| == 4
  {
    e.instructions[|e.instructions| - 4..]
  }

  /** Each instruction method appends exactly one four-byte record, so a
      buffer built only by them has a length that is a multiple of four. The
      record's selectors and literal decode back to what was given. */
  lemma EmittedRecords(e: Emitter, op: Opcode, src: Dest, dst: Dest, lit: I16)
    ensures var r := EmitInstruction(e, op, src, dst);
      |r.instructions| == |e.instructions| + 4 &&
      r.instructions[..|e.instructions|] == e.instructions &&
      DestFromByte(LastRecord(r)[2]) == Ok(src) &&
      DestFromByte(LastRecord(r)[3]) == Ok(dst)
    ensures var r := EmitLiteralInstruction(e, op, lit, dst);
      |r.instructions| == |e.instructions| + 4 &&
      r.instructions[..|e.instructions|] == e.instructions &&
      NumFromBytes(LastRecord(r)[1], LastRecord(r)[2]) == NumFrom(lit) &&
      DestFromByte(LastRecord(r)[3]) == Ok(dst)
    ensures |e.instructions| % 4 == 0 ==>
      |EmitInstruction(e, op, src, dst).instructions| % 4 == 0 &&
      |EmitLiteralInstruction(e, op, lit, dst).instructions| % 4 == 0
  {
    DestRoundTrip(src);
    DestRoundTrip(dst);
    NumBytesRoundTrip(NumFrom(lit));
  }

  /** Whatever opcode is asked for, the record written as-is decodes as a
      `Nop` with the literal flag clear. */
  lemma EmittedRecordsAreNop(e: Emitter, op: Opcode, src: Dest, dst: Dest, lit: I16)
    ensures var b := LastRecord(EmitInstruction(e, op, src, dst))[0];
      OpcodeFromByte(Vm.OpcodeNibble(b)) == Ok(Nop) && !Vm.IsLiteral(b)
    ensures var b := LastRecord(EmitLiteralInstruction(e, op, lit, dst))[0];
      OpcodeFromByte(Vm.OpcodeNibble(b)) == Ok(Nop) && !Vm.IsLiteral(b)
  {
  }

  // ---------------------------------------------------------------------
  // The evidently intended encoding
  // ---------------------------------------------------------------------

  /** Byte 0 of a record: the opcode in bits 0–3 and the literal flag in bit 4. */
  function FirstByte(op: Opcode, literal: bool): (b: Byte) {
    OpcodeCode(op) + (if literal then 16 else 0)
  }

  /** `emit_instruction` with its opcode encoded. */
  function EmitInstructionIntended(e: Emitter, op: Opcode, src: Dest, dst: Dest): (r: Emitter) {
    Emit(e, [FirstByte(op, false), 0, DestToByte(src), DestToByte(dst)])
  }

  /** `emit_literal_instruction` with its opcode and literal flag encoded. */
  function EmitLiteralInstructionIntended(e: Emitter, op: Opcode, lit: I16, dst: Dest): (r: Emitter) {
    var (hi, lo) := NumToBytes(NumFrom(lit));
    Emit(e, [FirstByte(op, true), hi, lo, DestToByte(dst)])
  }

  /** The corrected plain record decodes, under the machine's own decoder,
      to the opcode, the clear literal flag and the selectors it was built
      from. */
  lemma IntendedRecordDecodes(e: Emitter, op: Opcode, src: Dest, dst: Dest)
    ensures var rec := LastRecord(EmitInstructionIntended(e, op, src, dst));
      OpcodeFromByte(Vm.OpcodeNibble(rec[0])) == Ok(op) && !Vm.IsLiteral(rec[0]) &&
      Vm.DestOrDefault(rec[2]) == src && Vm.DestOrDefault(rec[3]) == dst
  {
    OpcodeRoundTrip(op);
    DestRoundTrip(src);
    DestRoundTrip(dst);
  }

  /** The corrected literal record decodes to the opcode, the set literal
      flag, the clamped literal and the destination it was built from. */
  lemma IntendedLiteralRecordDecodes(e: Emitter, op: Opcode, dst: Dest, lit: I16)
    ensures var rec := LastRecord(EmitLiteralInstructionIntended(e, op, lit, dst));
      OpcodeFromByte(Vm.OpcodeNibble(rec[0])) == Ok(op) && Vm.IsLiteral(rec[0]) &&
      NumFromBytes(rec[1], rec[2]) == NumFrom(lit) && Vm.DestOrDefault(rec[3]) == dst
  {
    OpcodeRoundTrip(op);
    DestRoundTrip(dst);
    NumBytesRoundTrip(NumFrom(lit));
  }

  /** Counterexample to the as-written emitter: a literal `Add` of any value
      into any destination (5 into the accumulator, say), emitted into a fresh
      buffer and executed, is a `Nop`. */
  lemma EmittedAddDoesNothing(m: Vm.Machine, lit: I16, dst: Dest)
    requires Vm.Valid(m) && m.pc == 0
    requires m.data == EmitLiteralInstruction(NewEmitter, Add, lit, dst).instructions
    ensures Vm.Step(m) == Vm.Next(m.(pc := 4))
  {
    assert m.data[0] == 0;
  }

  /** With the corrected encoding the emitted literal `Add` adds the clamped
      literal to the accumulator. */
  lemma IntendedAddRuns(m: Vm.Machine, lit: I16)
    requires Vm.Valid(m) && m.pc == 0
    requires m.data == EmitLiteralInstructionIntended(NewEmitter, Add, lit, Acc).instructions
    ensures Vm.Step(m) == Vm.Next(m.(acc := NumAdd(m.acc, NumFrom(lit)), pc := 4))
  {
    IntendedLiteralRecordDecodes(NewEmitter, Add, Acc, lit);
    assert LastRecord(EmitLiteralInstructionIntended(NewEmitter, Add, lit, Acc)) == m.data;
  }
}

=== FILE: modules.dfy ===
/** The port modules the machine reads from and writes to (src/modules.rs).
    Only the two pure modules are modelled as state: `NoneModule`, which
    reads 0 and discards writes, and `StackModule`, a LIFO buffer. */
module Modules {
  import opened Common

  /** The state of a port module. The top of a stack is its last element,
      as for a `Vec` used with `push` and `pop`. */
  datatype Port = NonePort | StackPort(stack: seq<Num>)

  /** `StackModule::new()`. */
  const EmptyStack: Port := StackPort([])

  /** `Module::read`: the value read (or the module's error) and the module's
      state afterwards. */
  function Read(p: Port): (r: (Result<Num>, Port))
    ensures r.1.NonePort? <==> p.NonePort?
    ensures r.0.Err? ==> r.1 == p
  {
    match p
    case NonePort => (Ok(NumFrom(0)), p)
    case StackPort(s) =>
      if |s| == 0 then (Err("stack underflow"), p)
      else (Ok(s[|s| - 1]), StackPort(s[..|s| - 1]))
  }

  /** `Module::write`: the module's error, if any, and its state afterwards.
      Neither pure module ever reports an error. */
  function Write(p: Port, n: Num): (r: (Option<Error>, Port))
    ensures r.0 == None
    ensures r.1.NonePort? <==> p.NonePort?
  {
    match p
    case NonePort => (None, p)
    case StackPort(s) => (None, StackPort(s + [n]))
  }

  /** `NoneModule` reads 0 and forgets whatever is written to it. */
  lemma NoneModuleIsInert(n: Num)
    ensures Read(NonePort) == (Ok(0), NonePort)
    ensures Write(NonePort, n) == (None, NonePort)
  {
  }

  /** Reading an empty stack is an underflow that leaves it empty. */
  lemma StackUnderflow()
    ensures Read(EmptyStack) == (Err("stack underflow"), EmptyStack)
  {
  }

  /** A write followed by a read gives back the value written and the stack
      as it was before. */
  lemma StackWriteThenRead(s: seq<Num>, n: Num)
    ensures Read(Write(StackPort(s), n).1) == (Ok(n), StackPort(s))
  {
    assert (s + [n])[..|s|] == s;
  }

  function WriteAll(p: Port, xs: seq<Num>): (q: Port)
    decreases |xs|
  {
    if |xs| == 0 then p else WriteAll(Write(p, xs[0]).1, xs[1..])
  }

  /** Reads `k` values in turn, stopping at the first error. */
  function ReadMany(p: Port, k: nat): (r: (Result<seq<Num>>, Port))
    decreases k
  {
    if k == 0 then (Ok([]), p)
    else
      match Read(p)
      case (Err(e), p') => (Err(e), p')
      case (Ok(n), p') =>
        match ReadMany(p', k - 1)
        case (Err(e), p'') => (Err(e), p'')
        case (Ok(ns), p'') => (Ok([n] + ns), p'')
  }

  function Reverse<T>(xs: seq<T>): (r: seq<T>)
    ensures |r| == |xs|
  {
    if |xs| == 0 then [] else Reverse(xs[1..]) + [xs[0]]
  }

  lemma {:induction false} WriteAllStack(s: seq<Num>, xs: seq<Num>)
    ensures WriteAll(StackPort(s), xs) == StackPort(s + xs)
    decreases |xs|
  {
    if |xs| > 0 {
      WriteAllStack(s + [xs[0]], xs[1..]);
      assert s + [xs[0]] + xs[1..] == s + xs;
    }
  }

  /** The stack is last-in first-out: after writing `xs`, reading as many
      values returns them in reverse order and restores the original stack. */
  lemma {:induction false} StackIsLifo(s: seq<Num>, xs: seq<Num>)
    ensures ReadMany(WriteAll(StackPort(s), xs), |xs|) == (Ok(Reverse(xs)), StackPort(s))
    decreases |xs|
  {
    WriteAllStack(s, xs);
    if |xs| > 0 {
      var t := s + xs;
      var last := xs[|xs| - 1];
      var init := xs[..|xs| - 1];
      assert t[..|t| - 1] == s + init;
      assert Read(StackPort(t)) == (Ok(last), StackPort(s + init));
      StackIsLifo(s, init);
      WriteAllStack(s, init);
      ReverseLast(xs);
    }
  }

  lemma {:induction false} ReverseLast<T>(xs: seq<T>)
    requires |xs| > 0
    ensures Reverse(xs) == [xs[|xs| - 1]] + Reverse(xs[..|xs| - 1])
    decreases |xs|
  {
    if |xs| > 1 {
      var ys := xs[1..];
      ReverseLast(ys);
      assert ys[..|ys| - 1] == xs[..|xs| - 1][1..];
      assert ys[|ys| - 1] == xs[|xs| - 1];
    } else {
      assert xs[..0] == [];
    }
  }

  // ---------------------------------------------------------------------
  // Module selection
  // ---------------------------------------------------------------------

  /** The modules `get_module` can construct; `printAsNumber` is the `num`
      flag handed to the console output module. */
  datatype ModuleKind =
    | NoneModule
    | ConsoleInputModule
    | ConsoleOutputModule(printAsNumber: bool)
    | StackModule

  function LowerChar(c: char): (l: char) {
    if 'A' <= c <= 'Z' then (c as int + 32) as char else c
  }

  /** `str::to_lowercase`, restricted to the ASCII letters. */
  function ToLower(s: string): (r: string)
    ensures |r| == |s|
    ensures forall i :: 0 <= i < |r| ==> !('A' <= r[i] <= 'Z')
    ensures forall i :: 0 <= i < |s| && !('A' <= s[i] <= 'Z') ==> r[i] == s[i]
    ensures forall i :: 0 <= i < |s| && 'A' <= s[i] <= 'Z' ==> r[i] as int == s[i] as int + 32
  {
    seq(|s|, i requires 0 <= i < |s| => LowerChar(s[i]))
  }

  /** `get_module(m, num)`: select a module by its case-insensitive name. */
  function GetModule(m: string, num: bool): (r: Result<ModuleKind>)
    ensures r.Ok? <==> ToLower(m) == "none" || ToLower(m) == "stdin" || ToLower(m) == "stdout" || ToLower(m) == "stack-"
    ensures r == Ok(StackModule) <==> ToLower(m) == "stack-"
    ensures r == Ok(NoneModule) <==> ToLower(m) == "none"
    ensures r == Ok(ConsoleInputModule) <==> ToLower(m) == "stdin"
    ensures r == Ok(ConsoleOutputModule(num)) <==> ToLower(m) == "stdout"
    ensures r.Err? ==> r.error == "'" + ToLower(m) + "' is not a valid module"
  {
    var s := ToLower(m);
    if s == "none" then Ok(NoneModule)
    else if s == "stdin" then Ok(ConsoleInputModule)
    else if s == "stdout" then Ok(ConsoleOutputModule(num))
    else if s == "stack-" then Ok(StackModule)
    else Err("'" + s + "' is not a valid module")
  }

  lemma ToLowerIdempotent(s: string)
    ensures ToLower(ToLower(s)) == ToLower(s)
  {
    var t := ToLower(s);
    assert forall i :: 0 <= i < |t| ==> ToLower(t)[i] == t[i];
  }

  /** Selection ignores letter case. */
  lemma GetModuleIgnoresCase(m: string, num: bool)
    ensures GetModule(m, num) == GetModule(ToLower(m), num)
  {
    ToLowerIdempotent(m);
  }

  lemma LowerUpperStackName()
    ensures ToLower("STACK-") == "stack-"
  {
    var t := ToLower("STACK-");
    assert t[0] == 's' && t[1] == 't' && t[2] == 'a';
    assert t[3] == 'c' && t[4] == 'k' && t[5] == '-';
  }

  lemma LowerBareStackName()
    ensures ToLower("stack") == "stack"
  {
    var t := ToLower("stack");
    assert t[0] == 's' && t[1] == 't' && t[2] == 'a';
    assert t[3] == 'c' && t[4] == 'k';
  }

  /** Upper-case names select the same module. */
  lemma GetModuleUpperCaseStack(num: bool)
    ensures GetModule("STACK-", num) == Ok(StackModule)
  {
    LowerUpperStackName();
  }

  /** The stack module is reached only with its trailing hyphen. */
  lemma GetModuleStackNeedsHyphen(num: bool)
    ensures GetModule("stack", num) == Err("'stack' is not a valid module")
  {
    LowerBareStackName();
    BareStackNameUnknown();
    BareStackRejectionText();
  }

  lemma BareStackNameUnknown()
    ensures "stack" != "none" && "stack" != "stdin" && "stack" != "stdout" && "stack" != "stack-"
  {
    assert "stack"[2] != "stdin"[2];
  }

  lemma BareStackRejectionText()
    ensures "'" + "stack" + "' is not a valid module" == "'stack' is not a valid module"
  {
  }
}

=== FILE: scenarios.dfy ===
/** Whole programs run on the RS-100 model, from the initial state. */
module Scenarios {
  import opened Common
  import opened Modules
  import opened Vm
  import opened VmProperties

  /** A single `Nop` record halts after one step, with no port touched. */
  lemma NopProgramHalts(up: Port, down: Port)
    ensures Run(New([0x00, 0x00, 0x00, 0x00], up, down), 1)
         == Halted(New([0x00, 0x00, 0x00, 0x00], up, down).(pc := 4))
  {
    var m := New([0x00, 0x00, 0x00, 0x00], up, down);
    assert GetOpcode(m) == Ok(Nop);
    assert Step(m) == Next(m.(pc := 4));
    RunTakesStep(m, 1);
    RunAtEndHalts(m.(pc := 4), 0);
  }

  const MovSavSwpProgram: seq<Byte> :=
    [0x11, 0x00, 0x2A, 0x01,  0x03, 0x00, 0x00, 0x00,  0x02, 0x00, 0x00, 0x00]

  /** The three steps of the program, one lemma each. */
  lemma MovSavSwpMov(m: Machine)
    requires m == New(MovSavSwpProgram, m.up, m.down)
    ensures Step(m) == Next(m.(acc := 42, pc := 4))
  {
    assert NumFromBytes(0x00, 0x2A) == 42;
    assert GetOpcode(m) == Ok(Mov) && IsLiteral(Byte0(m));
    StepMov(m);
  }

  lemma MovSavSwpSav(m: Machine)
    requires Valid(m) && m.data == MovSavSwpProgram && m.pc == 4
    ensures Step(m) == Next(m.(bak := m.acc, pc := 8))
  {
    assert GetOpcode(m) == Ok(Sav);
    StepWithoutOperands(m);
  }

  lemma MovSavSwpSwp(m: Machine)
    requires Valid(m) && m.data == MovSavSwpProgram && m.pc == 8
    ensures Step(m) == Next(m.(acc := m.bak, bak := m.acc, pc := 12))
  {
    assert GetOpcode(m) == Ok(Swp);
    StepWithoutOperands(m);
  }

  /** `Mov` of the literal 42 into `Acc`, then `Sav`, then `Swp`: both
      registers end up holding 42 and no port is touched. */
  lemma MovSavSwp(up: Port, down: Port)
    ensures var r := Run(New(MovSavSwpProgram, up, down), 3);
      r.Halted? && r.m.acc == 42 && r.m.bak == 42 && r.m.up == up && r.m.down == down
  {
    var m0 := New(MovSavSwpProgram, up, down);
    var m1 := m0.(acc := 42, pc := 4);
    var m2 := m1.(bak := 42, pc := 8);
    var m3 := m2.(pc := 12);
    MovSavSwpMov(m0);
    MovSavSwpSav(m1);
    MovSavSwpSwp(m2);
    RunTakesStep(m0, 3);
    RunTakesStep(m1, 2);
    RunTakesStep(m2, 1);
    RunAtEndHalts(m3, 0);
  }

  /** `Add` of the literal 1500 (bytes 0x05 0xDC) saturates the operand to
      999 before adding it. */
  lemma AddSaturatesLiteral(up: Port, down: Port)
    ensures var prog := [0x14, 0x05, 0xDC, 0x00];
      Run(New(prog, up, down), 1) == Halted(New(prog, up, down).(acc := 999, pc := 4))
  {
    var prog: seq<Byte> := [0x14, 0x05, 0xDC, 0x00];
    var m := New(prog, up, down);
    assert NumFromBytes(0x05, 0xDC) == 999;
    assert GetOpcode(m) == Ok(Add) && IsLiteral(Byte0(m));
    StepArithmetic(m);
    RunTakesStep(m, 1);
    RunAtEndHalts(m.(acc := 999, pc := 4), 0);
  }

  /** A literal `Jez` to 0x0100_0008 (bytes 0x01 0x00 0x08) is taken when the
      accumulator is zero, and falls through to `pc + 4` otherwise. */
  lemma JezTakenOrNot(up: Port, down: Port, acc: Num)
    ensures var prog := [0x18, 0x01, 0x00, 0x08];
      var m := New(prog, up, down).(acc := acc);
      Step(m) == Next(m.(pc := if acc == 0 then 0x0100_0008 else 4))
  {
    var m := New([0x18, 0x01, 0x00, 0x08], up, down).(acc := acc);
    assert GetOpcode(m) == Ok(Jez) && IsLiteral(Byte0(m));
    assert TargetAt(m) == 0x0100_0008;
    assert NumFrom(0) == 0;
    StepJumps(m);
  }

  /** Byte 0 = 0x0D is the invalid opcode 13: the run stops with an `Err` in
      the initial state. */
  lemma InvalidOpcodeStops(up: Port, down: Port, fuel: nat)
    requires fuel > 0
    ensures Run(New([0x0D, 0x00, 0x00, 0x00], up, down), fuel)
         == Failed("invalid opcode 13", New([0x0D, 0x00, 0x00, 0x00], up, down))
  {
    var m := New([0x0D, 0x00, 0x00, 0x00], up, down);
    assert OpcodeNibble(m.data[0]) == 13;
    assert NatToString(13) == "13";
    RunStopsOnInvalidOpcode(m, fuel);
  }

  /** `Mov` from `Up` to `Down` moves the top of an up stack to a down stack
      and leaves `lastDst` at `Down`. */
  lemma MovUpToDown(s: seq<Num>, n: Num, t: seq<Num>)
    ensures var prog := [0x01, 0x00, 0x02, 0x03];
      var m := New(prog, StackPort(s + [n]), StackPort(t));
      Step(m) == Next(m.(up := StackPort(s), down := StackPort(t + [n]), lastDst := Down, pc := 4))
  {
    var m := New([0x01, 0x00, 0x02, 0x03], StackPort(s + [n]), StackPort(t));
    assert (s + [n])[..|s|] == s;
    assert GetOpcode(m) == Ok(Mov) && !IsLiteral(Byte0(m));
    assert Get(m, Up) == Ok((n, m.(lastDst := Up, up := StackPort(s))));
    StepMov(m);
  }
}

=== FILE: vm.dfy ===
/** The RS-100 fetch–execute machine (src/vm.rs), written as a pure `Step`
    over an immutable machine state and a fuel-bounded `Run` standing for
    the `execute` loop. */
module Vm {
  import opened Common
  import opened Modules

  /** `RS100`: the program bytes, the up and down port modules, the port used
      most recently, the program counter and the two registers. */
  datatype Machine = Machine(
    data: seq<Byte>,
    up: Port,
    down: Port,
    lastDst: Dest,
    pc: nat,
    acc: Num,
    bak: Num)

  /** `lastDst` only ever records a port, so resolving `Last` never loops. */
  predicate Valid(m: Machine) {
    m.lastDst == Up || m.lastDst == Down
  }

  /** `RS100::new`. */
  function New(data: seq<Byte>, up: Port, down: Port): (m: Machine)
    ensures Valid(m)
    ensures m.pc == 0 && m.acc == 0 && m.bak == 0 && m.lastDst == Down
    ensures m.data == data && m.up == up && m.down == down
  {
    Machine(data, up, down, Down, 0, Zero, Zero)
  }

  // ---------------------------------------------------------------------
  // Decoding the record at pc
  // ---------------------------------------------------------------------

  /** `data[pc] & 0b1111`. */
  function OpcodeNibble(b: Byte): (r: nat)
    ensures r < 16 && (b - r) % 16 == 0
  {
    b % 16
  }

  /** `get_flags`: `(data[pc] & 0b11110000) >> 4`, the high nibble. */
  function Flags(b: Byte): (r: nat)
    ensures r < 16 && 16 * r <= b < 16 * r + 16
  {
    b / 16
  }

  /** `is_literal`: the lowest flag bit, which is bit 4 of the byte. */
  predicate IsLiteral(b: Byte)
    ensures IsLiteral(b) <==> b % 32 >= 16
  {
    Flags(b) % 2 == 1
  }

  /** `get_opcode`. */
  function GetOpcode(m: Machine): (r: Result<Opcode>)
    requires m.pc < |m.data|
    ensures r.Ok? <==> OpcodeNibble(m.data[m.pc]) <= 12
    ensures r.Ok? ==> OpcodeCode(r.value) == OpcodeNibble(m.data[m.pc])
  {
    OpcodeFromByte(OpcodeNibble(m.data[m.pc]))
  }

  /** The jump target `(b1 as u32) << 24 | (b2 as u32) << 8 | b3 as u32`.
      The three shifted bytes occupy disjoint bits, so `|` adds them. The
      target fits in a `u32`; byte 1 lands in bits 24–31, byte 2 in bits 8–15
      and byte 3 in bits 0–7, so bits 16–23 are always zero and the three
      bytes can be read back from the target. */
  function JumpTarget(b1: Byte, b2: Byte, b3: Byte): (r: nat)
    ensures r < 0x1_0000_0000
    ensures r / 0x100_0000 == b1 && (r / 0x100) % 0x100 == b2 && r % 0x100 == b3
    ensures (r / 0x1_0000) % 0x100 == 0
  {
    PackedBytes(b1, b2, b3);
    b1 * 0x100_0000 + b2 * 0x100 + b3
  }

  lemma PackedBytes(b1: Byte, b2: Byte, b3: Byte)
    ensures var t := b1 * 0x100_0000 + b2 * 0x100 + b3;
      t < 0x1_0000_0000 && t / 0x100_0000 == b1 && (t / 0x100) % 0x100 == b2 &&
      t % 0x100 == b3 && (t / 0x1_0000) % 0x100 == 0
  {
    var t := b1 * 0x100_0000 + b2 * 0x100 + b3;
    var low := b2 * 0x100 + b3;
    assert 0 <= low < 0x1_0000;
    assert t == b1 * 0x100_0000 + low;
    assert t / 0x1_0000 == b1 * 0x100;
    assert t / 0x100_0000 == b1;
    assert t / 0x100 == b1 * 0x1_0000 + b2;
  }

  /** `Dest::try_from(v).unwrap_or_default()`. */
  function DestOrDefault(v: Byte): (d: Dest)
    ensures v < 4 ==> DestToByte(d) == v
    ensures v >= 4 ==> d == Last
  {
    match DestFromByte(v)
    case Ok(d) => d
    case Err(_) => DefaultDest
  }

  // ---------------------------------------------------------------------
  // Reading and writing through a selector
  // ---------------------------------------------------------------------

  /** `get`. `Last` resolves through `lastDst`; `Acc` reads the accumulator
      and leaves `lastDst` alone; `Up` and `Down` record themselves in
      `lastDst` and then read — both from the *up* module. */
  function Get(m: Machine, d: Dest): (r: Result<(Num, Machine)>)
    requires Valid(m)
    ensures r.Ok? ==> Valid(r.value.1)
    ensures r.Ok? ==> r.value.1.data == m.data && r.value.1.pc == m.pc
    ensures r.Ok? ==> r.value.1.acc == m.acc && r.value.1.bak == m.bak
    ensures r.Ok? ==> r.value.1.down == m.down
    decreases if d.Last? then 1 else 0
  {
    match d
    case Last => Get(m, m.lastDst)
    case Acc => Ok((m.acc, m))
    case Up | Down =>
      match Read(m.up)
      case (Ok(n), up') => Ok((n, m.(lastDst := d, up := up')))
      case (Err(e), _) => Err(e)
  }

  /** `set`. The module's write error is dropped, so `set` never fails and is
      modelled as returning the machine directly. */
  function Set(m: Machine, d: Dest, n: Num): (r: Machine)
    requires Valid(m)
    ensures Valid(r)
    ensures r.data == m.data && r.pc == m.pc && r.bak == m.bak
    decreases if d.Last? then 1 else 0
  {
    match d
    case Last => Set(m, m.lastDst, n)
    case Acc => m.(acc := n)
    case Up => m.(lastDst := Up, up := Write(m.up, n).1)
    case Down => m.(lastDst := Down, down := Write(m.down, n).1)
  }

  // ---------------------------------------------------------------------
  // Operands
  // ---------------------------------------------------------------------

  /** The three things `get_operands` computes at once: operand A, the
      destination selector from byte 3, and the jump target from bytes 1–3. */
  datatype Operands = Operands(a: Num, dst: Dest, target: nat)

  /** Why the Rust program panics: a byte index past the end of the program,
      or a failed port read inside `get_operands` (its `expect`). */
  datatype AbortReason =
    | IndexOutOfBounds(index: nat, len: nat)
    | OperandReadFailed(error: Error)

  datatype Fetch = Fetched(ops: Operands, m: Machine) | Panicked(reason: AbortReason)

  /** `get_operands`, evaluated in Rust's order: operand A (bytes 1 and 2 for
      a literal, else byte 2 and then a read through it), then byte 3. */
  function GetOperands(m: Machine): (r: Fetch)
    requires Valid(m) && m.pc < |m.data|
    ensures r.Fetched? ==> m.pc + 3 < |m.data| && Valid(r.m)
    ensures r.Fetched? ==> r.m.data == m.data && r.m.pc == m.pc && r.m.acc == m.acc && r.m.bak == m.bak
    ensures r.Fetched? ==> r.ops.dst == DestOrDefault(m.data[m.pc + 3])
    ensures r.Fetched? ==> r.ops.target == JumpTarget(m.data[m.pc + 1], m.data[m.pc + 2], m.data[m.pc + 3])
    ensures m.pc + 3 >= |m.data| ==> r.Panicked?
    ensures m.pc + 2 >= |m.data| ==> r.Panicked? && r.reason.IndexOutOfBounds?
    ensures m.pc + 2 < |m.data| && !IsLiteral(m.data[m.pc]) && Get(m, DestOrDefault(m.data[m.pc + 2])).Err? ==>
              r == Panicked(OperandReadFailed(Get(m, DestOrDefault(m.data[m.pc + 2])).error))
    ensures m.pc + 3 < |m.data| && IsLiteral(m.data[m.pc]) ==>
              r.Fetched? && r.ops.a == NumFromBytes(m.data[m.pc + 1], m.data[m.pc + 2]) && r.m == m
    ensures m.pc + 3 < |m.data| && !IsLiteral(m.data[m.pc]) ==>
              var read := Get(m, DestOrDefault(m.data[m.pc + 2]));
              (read.Ok? <==> r.Fetched?) &&
              (read.Ok? ==> r.ops.a == read.value.0 && r.m == read.value.1) &&
              (read.Err? ==> r == Panicked(OperandReadFailed(read.error)))
  {
    var len := |m.data|;
    var literal := IsLiteral(m.data[m.pc]);
    if literal && m.pc + 1 >= len then Panicked(IndexOutOfBounds(m.pc + 1, len))
    else if m.pc + 2 >= len then Panicked(IndexOutOfBounds(m.pc + 2, len))
    else
      var operandA: Result<(Num, Machine)> :=
        if literal then Ok((NumFromBytes(m.data[m.pc + 1], m.data[m.pc + 2]), m))
        else Get(m, DestOrDefault(m.data[m.pc + 2]));
      match operandA
      case Err(e) => Panicked(OperandReadFailed(e))
      case Ok((a, m')) =>
        if m.pc + 3 >= len then Panicked(IndexOutOfBounds(m.pc + 3, len))
        else
          var b1, b2, b3 := m.data[m.pc + 1], m.data[m.pc + 2], m.data[m.pc + 3];
          Fetched(Operands(a, DestOrDefault(b3), JumpTarget(b1, b2, b3)), m')
  }

  // ---------------------------------------------------------------------
  // One instruction
  // ---------------------------------------------------------------------

  /** `pc += INSTRUCTION_SIZE`. */
  function Advance(m: Machine): (r: Machine) {
    m.(pc := m.pc + InstructionSize)
  }

  /** The opcodes whose arm of `execute` calls `get_operands`. */
  predicate UsesOperands(op: Opcode) {
    !(op.Nop? || op.Swp? || op.Sav? || op.Neg? || op.Jro?)
  }

  /** The arms of `execute` that act on fetched operands. */
  function ExecuteWithOperands(m: Machine, op: Opcode, ops: Operands): (r: Machine)
    requires Valid(m) && UsesOperands(op)
    ensures Valid(r) && r.data == m.data && r.bak == m.bak
    ensures op.Mov? || op.Add? || op.Sub? ==> r.pc == m.pc + InstructionSize
    ensures !(op.Mov? || op.Add? || op.Sub?) ==> r.pc in {ops.target, m.pc + InstructionSize} && r.acc == m.acc
  {
    match op
    case Mov => Advance(Set(m, ops.dst, ops.a))
    case Add => Advance(Set(m, Acc, NumAdd(m.acc, ops.a)))
    case Sub => Advance(Set(m, Acc, NumSub(m.acc, ops.a)))
    case Jmp => m.(pc := ops.target)
    case Jez => if m.acc == NumFrom(0) then m.(pc := ops.target) else Advance(m)
    case Jnz => if m.acc != NumFrom(0) then m.(pc := ops.target) else Advance(m)
    case Jgz => if NumCompare(m.acc, NumFrom(0)) == Greater then m.(pc := ops.target) else Advance(m)
    case Jlz => if NumCompare(m.acc, NumFrom(0)) == Less then m.(pc := ops.target) else Advance(m)
    case _ => assert false; m
  }

  /** How one pass of the `execute` loop ends: with the next state, with the
      `Err` of an invalid opcode, or with a panic. */
  datatype StepResult = Next(m: Machine) | Fail(error: Error) | Abort(reason: AbortReason)

  /** One pass of the `execute` loop, for `pc < data.len()`. */
  function Step(m: Machine): (r: StepResult)
    requires Valid(m) && m.pc < |m.data|
    ensures r.Next? ==> Valid(r.m) && r.m.data == m.data
    ensures r.Fail? <==> OpcodeNibble(m.data[m.pc]) >= 13
    ensures r.Fail? ==> r.error == "invalid opcode " + NatToString(OpcodeNibble(m.data[m.pc]))
  {
    match GetOpcode(m)
    case Err(e) => Fail(e)
    case Ok(op) =>
      match op
      case Nop => Next(Advance(m))
      case Swp => Next(Advance(m.(acc := m.bak, bak := m.acc)))
      case Sav => Next(Advance(m.(bak := m.acc)))
      case Neg => Next(Advance(m.(acc := NumNeg(m.acc))))
      case Jro => Next(m.(pc := NumToUsize(m.acc)))
      case _ =>
        match GetOperands(m)
        case Panicked(reason) => Abort(reason)
        case Fetched(ops, m') => Next(ExecuteWithOperands(m', op, ops))
  }

  // ---------------------------------------------------------------------
  // The execute loop
  // ---------------------------------------------------------------------

  /** How `execute` ends: `Ok(())` once `pc` is past the program, the `Err`
      of an invalid opcode (with the state it was met in), a panic, or — in
      the model only — running out of fuel. */
  datatype RunResult =
    | Halted(m: Machine)
    | Failed(error: Error, m: Machine)
    | Aborted(reason: AbortReason)
    | OutOfFuel(m: Machine)

  /** What the loop asks of a single step: it is defined on every valid
      machine whose `pc` is inside the program, and a step that goes on keeps
      the machine valid and the program unchanged. */
  ghost predicate IsStep(step: Machine --> StepResult) {
    forall m: Machine :: Valid(m) && m.pc < |m.data| ==>
      step.requires(m) && (step(m).Next? ==> Valid(step(m).m) && step(m).m.data == m.data)
  }

  /** The `execute` loop around a step function, allowed at most `fuel`
      passes. It is stated for any step so that facts about the loop itself
      are proved once, apart from what an instruction does. */
  function Loop(step: Machine --> StepResult, m: Machine, fuel: nat): (r: RunResult)
    requires IsStep(step) && Valid(m)
    ensures r.Halted? ==> Valid(r.m) && r.m.data == m.data && r.m.pc >= |r.m.data|
    ensures r.Failed? ==> Valid(r.m) && r.m.data == m.data && r.m.pc < |r.m.data| && step(r.m) == Fail(r.error)
    ensures r.OutOfFuel? ==> Valid(r.m) && r.m.data == m.data
    decreases fuel
  {
    if m.pc >= |m.data| then Halted(m)
    else if fuel == 0 then OutOfFuel(m)
    else
      match step(m)
      case Fail(e) => Failed(e, m)
      case Abort(reason) => Aborted(reason)
      case Next(m') => Loop(step, m', fuel - 1)
  }

  /** `execute`, allowed at most `fuel` instructions. */
  function Run(m: Machine, fuel: nat): (r: RunResult)
    requires Valid(m)
    ensures r.Halted? ==> Valid(r.m) && r.m.data == m.data && r.m.pc >= |r.m.data|
    ensures r.Failed? ==> Valid(r.m) && r.m.data == m.data && r.m.pc < |r.m.data|
    ensures r.Failed? ==> OpcodeNibble(r.m.data[r.m.pc]) >= 13
    ensures r.OutOfFuel? ==> Valid(r.m) && r.m.data == m.data
  {
    Loop(Step, m, fuel)
  }
}

=== FILE: vm_properties.dfy ===
/** Properties of the RS-100 machine: how the first byte and the operand
    bytes decode, how `Last` resolves, what each opcode does to the state,
    and how the `execute` loop ends. */
module VmProperties {
  import opened Common
  import opened Modules
  import opened Vm

  // ---------------------------------------------------------------------
  // Decoding
  // ---------------------------------------------------------------------

  /** Bits 5–7 of the first byte are never looked at: bytes that agree on
      bits 0–4 decode to the same opcode nibble and literal flag, and those
      two fields together are exactly bits 0–4. */
  lemma FirstByteFields(b: Byte, b': Byte)
    ensures b % 32 == OpcodeNibble(b) + (if IsLiteral(b) then 16 else 0)
    ensures b % 32 == b' % 32 ==> OpcodeNibble(b) == OpcodeNibble(b') && IsLiteral(b) == IsLiteral(b')
  {
    LowFiveBits(b);
    LowFiveBits(b');
  }

  lemma LowFiveBits(b: Byte)
    ensures OpcodeNibble(b) == (b % 32) % 16
    ensures Flags(b) % 2 == (b % 32) / 16
  {
    var q, r := b / 32, b % 32;
    assert b == 32 * q + r;
    assert b / 16 == 2 * q + r / 16;
    assert b % 16 == r % 16;
  }

  // ---------------------------------------------------------------------
  // Selectors
  // ---------------------------------------------------------------------

  /** `Last` reads and writes exactly where `lastDst` points. */
  lemma LastResolvesToLastDst(m: Machine, n: Num)
    requires Valid(m)
    ensures Get(m, Last) == Get(m, m.lastDst)
    ensures Set(m, Last, n) == Set(m, m.lastDst, n)
    ensures Get(m, Last).Ok? ==> Get(m, Last).value.1.lastDst == m.lastDst
  {
  }

  /** Touching the accumulator never changes `lastDst` or a port. */
  lemma AccessingAccKeepsLastDst(m: Machine, n: Num)
    requires Valid(m)
    ensures Get(m, Acc) == Ok((m.acc, m))
    ensures Set(m, Acc, n) == m.(acc := n)
  {
  }

  /** After a port access `Last` means that port: a later read or write
      through `Last` behaves as one naming the port. */
  lemma LastFollowsPortAccess(m: Machine, d: Dest, n: Num, k: Num)
    requires Valid(m) && (d == Up || d == Down)
    ensures Set(m, d, n).lastDst == d
    ensures Set(Set(m, d, n), Last, k) == Set(Set(m, d, n), d, k)
    ensures Get(Set(m, d, n), Last) == Get(Set(m, d, n), d)
    ensures Get(m, d).Ok? ==> Get(m, d).value.1.lastDst == d
  {
  }

  /** A read through `Down` reads the up module, exactly as `Up` does, and
      differs from it only in what it records in `lastDst`. */
  lemma DownReadsUpModule(m: Machine)
    requires Valid(m)
    ensures Get(m, Down).Ok? <==> Read(m.up).0.Ok?
    ensures Get(m, Down).Ok? ==>
              Get(m, Down).value.0 == Read(m.up).0.value &&
              Get(m, Down).value.1 == m.(lastDst := Down, up := Read(m.up).1)
    ensures Get(m, Down).Ok? ==> Get(m, Up).Ok? && Get(m, Up).value.0 == Get(m, Down).value.0
    ensures Get(m, Up).Ok? <==> Read(m.up).0.Ok?
    ensures Get(m, Up).Ok? ==> Get(m, Up).value == (Read(m.up).0.value, m.(lastDst := Up, up := Read(m.up).1))
  {
  }

  /** Writes to a port go to that port's module, whose error is ignored. */
  lemma SetPortWrites(m: Machine, n: Num)
    requires Valid(m)
    ensures Set(m, Up, n) == m.(lastDst := Up, up := Write(m.up, n).1)
    ensures Set(m, Down, n) == m.(lastDst := Down, down := Write(m.down, n).1)
    ensures m.down.StackPort? ==> Set(m, Down, n).down == StackPort(m.down.stack + [n])
  {
  }

  // ---------------------------------------------------------------------
  // Opcodes
  // ---------------------------------------------------------------------

  /** Shorthands for the record at `pc`. */
  function Byte0(m: Machine): (b: Byte) requires m.pc < |m.data| { m.data[m.pc] }

  function TargetAt(m: Machine): (t: nat)
    requires m.pc + 3 < |m.data|
  {
    JumpTarget(m.data[m.pc + 1], m.data[m.pc + 2], m.data[m.pc + 3])
  }

  /** The opcodes that never fetch operands cannot panic, and act only on
      the registers and `pc`: `Swp` exchanges, `Sav` copies, `Neg` negates
      (leaving `bak` and `lastDst` alone), and `Jro` jumps to the
      accumulator read as a 64-bit unsigned address. */
  lemma StepWithoutOperands(m: Machine)
    requires Valid(m) && m.pc < |m.data|
    ensures GetOpcode(m) == Ok(Nop) ==> Step(m) == Next(m.(pc := m.pc + 4))
    ensures GetOpcode(m) == Ok(Swp) ==> Step(m) == Next(m.(acc := m.bak, bak := m.acc, pc := m.pc + 4))
    ensures GetOpcode(m) == Ok(Sav) ==> Step(m) == Next(m.(bak := m.acc, pc := m.pc + 4))
    ensures GetOpcode(m) == Ok(Neg) ==> Step(m) == Next(m.(acc := -m.acc, pc := m.pc + 4))
    ensures GetOpcode(m) == Ok(Jro) ==>
              Step(m) == Next(m.(pc := if m.acc >= 0 then m.acc else UsizeModulus + m.acc))
  {
    if GetOpcode(m) == Ok(Neg) {
      NumNegExact(m.acc);
    }
  }

  /** Every opcode that fetches operands needs the whole record: a record cut
      short by the end of the program panics. */
  lemma TruncatedRecordPanics(m: Machine)
    requires Valid(m) && m.pc < |m.data| && m.pc + 3 >= |m.data|
    requires GetOpcode(m).Ok? && UsesOperands(GetOpcode(m).value)
    ensures Step(m).Abort?
  {
  }

  /** Nop, Mov, Swp, Sav, Add, Sub and Neg always move on to the next record. */
  lemma StepAdvancesByFour(m: Machine)
    requires Valid(m) && m.pc < |m.data|
    requires GetOpcode(m).Ok? && GetOpcode(m).value in {Nop, Mov, Swp, Sav, Add, Sub, Neg}
    ensures Step(m).Next? ==> Step(m).m.pc == m.pc + InstructionSize
  {
    match GetOperands(m)
    case Panicked(_) =>
    case Fetched(ops, m') =>
      if GetOpcode(m).value == Mov {
        assert Set(m', ops.dst, ops.a).pc == m.pc;
      }
  }

  /** The jump family: `Jmp` always goes to the packed target; `Jez`, `Jnz`,
      `Jgz` and `Jlz` go there when the accumulator is zero, non-zero,
      positive or negative, and to the next record otherwise. The operand
      read a non-literal jump performs never touches the accumulator. */
  lemma StepJumps(m: Machine)
    requires Valid(m) && m.pc < |m.data|
    requires GetOpcode(m).Ok? && GetOpcode(m).value in {Jmp, Jez, Jnz, Jgz, Jlz}
    ensures Step(m).Next? <==> GetOperands(m).Fetched?
    ensures Step(m).Next? ==> m.pc + 3 < |m.data| && Step(m).m == GetOperands(m).m.(pc := Step(m).m.pc)
    ensures Step(m).Next? && GetOpcode(m).value == Jmp ==> Step(m).m.pc == TargetAt(m)
    ensures Step(m).Next? && GetOpcode(m).value == Jez ==>
              Step(m).m.pc == (if m.acc == 0 then TargetAt(m) else m.pc + 4)
    ensures Step(m).Next? && GetOpcode(m).value == Jnz ==>
              Step(m).m.pc == (if m.acc != 0 then TargetAt(m) else m.pc + 4)
    ensures Step(m).Next? && GetOpcode(m).value == Jgz ==>
              Step(m).m.pc == (if m.acc > 0 then TargetAt(m) else m.pc + 4)
    ensures Step(m).Next? && GetOpcode(m).value == Jlz ==>
              Step(m).m.pc == (if m.acc < 0 then TargetAt(m) else m.pc + 4)
    ensures Step(m).Next? ==> Step(m).m.acc == m.acc && Step(m).m.bak == m.bak
  {
    var op := GetOpcode(m).value;
    var f := GetOperands(m);
    if f.Fetched? {
      assert Step(m) == Next(ExecuteWithOperands(f.m, op, f.ops));
    } else {
      assert Step(m) == Abort(f.reason);
    }
  }

  /** `Add` and `Sub` saturate the accumulator against operand A, which for a
      literal is the clamped 16-bit value of bytes 1–2. */
  lemma StepArithmetic(m: Machine)
    requires Valid(m) && m.pc < |m.data|
    requires GetOpcode(m).Ok? && GetOpcode(m).value in {Add, Sub}
    ensures Step(m).Next? <==> GetOperands(m).Fetched?
    ensures Step(m).Next? && GetOpcode(m).value == Add ==>
              Step(m).m == Advance(GetOperands(m).m.(acc := NumAdd(m.acc, GetOperands(m).ops.a)))
    ensures Step(m).Next? && GetOpcode(m).value == Sub ==>
              Step(m).m == Advance(GetOperands(m).m.(acc := NumSub(m.acc, GetOperands(m).ops.a)))
    ensures m.pc + 3 < |m.data| && IsLiteral(Byte0(m)) && GetOpcode(m).value == Add ==>
              Step(m) == Next(m.(acc := NumAdd(m.acc, NumFromBytes(m.data[m.pc + 1], m.data[m.pc + 2])), pc := m.pc + 4))
  {
  }

  /** `Mov` writes operand A through the selector in byte 3, and a byte 3
      outside 0–3 falls back to `Last`, i.e. to the port that is `lastDst`
      once operand A has been read. */
  lemma StepMov(m: Machine)
    requires Valid(m) && m.pc < |m.data| && GetOpcode(m) == Ok(Mov)
    ensures Step(m).Next? <==> GetOperands(m).Fetched?
    ensures Step(m).Next? ==>
              var f := GetOperands(m);
              Step(m).m == Advance(Set(f.m, DestOrDefault(m.data[m.pc + 3]), f.ops.a))
    ensures Step(m).Next? && m.data[m.pc + 3] >= 4 ==>
              var f := GetOperands(m);
              Step(m).m == Advance(Set(f.m, f.m.lastDst, f.ops.a))
    ensures m.pc + 3 < |m.data| && IsLiteral(Byte0(m)) && m.data[m.pc + 3] == DestToByte(Acc) ==>
              Step(m) == Next(m.(acc := NumFromBytes(m.data[m.pc + 1], m.data[m.pc + 2]), pc := m.pc + 4))
  {
    if Step(m).Next? && m.data[m.pc + 3] >= 4 {
      var f := GetOperands(m);
      LastResolvesToLastDst(f.m, f.ops.a);
    }
  }

  /** A jump whose literal flag is clear still reads operand A through byte 2
      before it jumps: from an empty stack that read panics, and from a
      non-empty one it pops the stack and records `Up`. */
  lemma NonLiteralJumpReadsPort(m: Machine)
    requires Valid(m) && m.pc + 3 < |m.data| && GetOpcode(m) == Ok(Jmp)
    requires !IsLiteral(Byte0(m)) && m.data[m.pc + 2] == DestToByte(Up)
    requires m.up.StackPort?
    ensures |m.up.stack| == 0 ==> Step(m) == Abort(OperandReadFailed("stack underflow"))
    ensures |m.up.stack| > 0 ==>
              Step(m) == Next(m.(lastDst := Up, up := StackPort(m.up.stack[..|m.up.stack| - 1]), pc := TargetAt(m)))
  {
  }

  // ---------------------------------------------------------------------
  // The execute loop
  // ---------------------------------------------------------------------

  /** `execute` returns `Ok` at once when `pc` is already past the end. */
  lemma RunAtEndHalts(m: Machine, fuel: nat)
    requires Valid(m) && m.pc >= |m.data|
    ensures Run(m, fuel) == Halted(m)
  {
  }

  /** An opcode nibble of 13–15 is an `Err` naming the nibble, returned with
      the state unchanged: nothing further runs. */
  lemma RunStopsOnInvalidOpcode(m: Machine, fuel: nat)
    requires Valid(m) && m.pc < |m.data| && fuel > 0
    requires OpcodeNibble(Byte0(m)) >= 13
    ensures Run(m, fuel) == Failed("invalid opcode " + NatToString(OpcodeNibble(Byte0(m))), m)
  {
  }

  /** `Jro` with a negative accumulator sends `pc` to `2^64 + acc`, beyond any
      program a `Vec<u8>` can hold (at most `isize::MAX` bytes), so the loop
      ends with `Ok`. */
  lemma NegativeJroHalts(m: Machine, fuel: nat)
    requires Valid(m) && m.pc < |m.data| && |m.data| < 0x8000_0000_0000_0000
    requires GetOpcode(m) == Ok(Jro) && m.acc < 0 && fuel > 0
    ensures Run(m, fuel) == Halted(m.(pc := UsizeModulus + m.acc))
  {
    StepWithoutOperands(m);
    RunTakesStep(m, fuel);
    RunAtEndHalts(m.(pc := UsizeModulus + m.acc), fuel - 1);
  }

  /** A run that still has fuel takes the step at `pc` and carries on. */
  lemma RunTakesStep(m: Machine, fuel: nat)
    requires Valid(m) && m.pc < |m.data| && fuel > 0 && Step(m).Next?
    ensures Run(m, fuel) == Run(Step(m).m, fuel - 1)
  {
  }

  /** More fuel does not change a loop that already ended, whatever the step. */
  lemma {:induction false} LoopFuelMonotone(step: Machine --> StepResult, m: Machine, fuel: nat, extra: nat)
    requires IsStep(step) && Valid(m) && !Loop(step, m, fuel).OutOfFuel?
    ensures Loop(step, m, fuel + extra) == Loop(step, m, fuel)
    decreases fuel
  {
    if m.pc < |m.data| && fuel > 0 {
      var s := step(m);
      if s.Next? {
        LoopFuelMonotone(step, s.m, fuel - 1, extra);
      }
    }
  }

  /** A loop cut off after `a` passes resumes to where `a + b` passes lead. */
  lemma {:induction false} LoopComposes(step: Machine --> StepResult, m: Machine, a: nat, b: nat)
    requires IsStep(step) && Valid(m) && Loop(step, m, a).OutOfFuel?
    ensures Loop(step, Loop(step, m, a).m, b) == Loop(step, m, a + b)
    decreases a
  {
    if a > 0 && m.pc < |m.data| {
      var s := step(m);
      if s.Next? {
        LoopComposes(step, s.m, a - 1, b);
      }
    }
  }

  /** Fuel only bounds the model: once a run ends with enough fuel, more fuel
      changes nothing. */
  lemma RunFuelMonotone(m: Machine, fuel: nat, extra: nat)
    requires Valid(m) && !Run(m, fuel).OutOfFuel?
    ensures Run(m, fuel + extra) == Run(m, fuel)
  {
    LoopFuelMonotone(Step, m, fuel, extra);
  }

  /** Running `a` instructions and then `b` more is running `a + b`. */
  lemma RunComposes(m: Machine, a: nat, b: nat)
    requires Valid(m) && Run(m, a).OutOfFuel?
    ensures Run(Run(m, a).m, b) == Run(m, a + b)
  {
    LoopComposes(Step, m, a, b);
  }
}
